=== FILE: README.md ===
# NPC Dungeon engine in Dafny

This project models the turn-based dungeon engine of NPC Dungeon (the
`GameEngine` class) and the three helpers of the web front end's utility
module: `formatTime`, `createPageUrl` and `cn`.

The engine runs on a 16 x 16 grid of wall and floor tiles. A player moves
one cell at a time. Stepping into an enemy attacks it, and the enemy
counter-attacks when it survives. Stepping onto an item picks it up, and
stepping onto an NPC talks to them. The player can drink potions from the
inventory and buy traps for 50 gold. Ending a turn advances the counter, and
then every enemy, in list order, takes one greedy king-move step towards the
player or hits them. Every action except one appends time-stamped entries
to a message log. The exception is using an available item that is not a
potion, which changes nothing at all. A save snapshot carries the turn, the player, the enemy, item and NPC
lists, and the log.

The model has value semantics. `GameState` is an immutable datatype, and
every engine method is a function from the old state (plus the random draws
and the clock reading it consumes) to the new one.

- `Math.random()` becomes a parameter of type `Roll`, a real in [0, 1). The
  source's formulas are kept exactly: `floor(roll * 15)` and
  `floor(roll * attack)`.
- Level generation takes one draw per cell, as a function of the cell.
- `endTurn` takes one draw per enemy, as a function of the enemy's index.
- `Date.now()` becomes a `now` parameter. All entries one call appends
  carry the same stamp.
- JavaScript object identity, which `find` and `filter` use, is modelled by
  the entity's index in its list.

Modules follow the program's structure:

- `Common`: `Option`, `Max`/`Min`/`Sign`/`Abs`, and first-match `Find` and `RemoveAt` over lists.
- `Text`: decimal rendering of integers, ASCII lower-casing, and join/split on a separator.
- `Utils`: `formatTime`, `createPageUrl` and `cn`.
- `World`: the grid, the entities, the message log and `createEnemy`.
- `Combat`: damage rolls, `attackEnemy`, `defeatEnemy` and `enemyAttackPlayer`.
- `Actions`: `movePlayer`, `pickupItem`, `interactNPC`, `placeTrap` and `useItem`.
- `EnemyAI`: `moveEnemyAI` and `endTurn`.
- `Level`: `initializeLevel` and the constructor.
- `Persistence`: `getSaveData` and `loadSaveData`.
- `Session`: arbitrary sequences of moves, item uses, trap purchases and turn ends.

Points where the code behaves differently from what one might expect:

- A goblin (30 hp, defense 2) hit once is left with 18 to 27 hp. The raw
  roll `floor(roll * 15)` is at most 14, so the top of the damage range is
  12, not 13 (`Combat.GoblinSurvivesOneHit`).
- Picking up an item does not by itself move the player. The NPC check
  still runs afterwards, and an NPC on the same cell blocks the step after
  the item is taken (`Actions.ItemTakenBehindNpc`).
- `endTurn` increments the counter before the enemies act
  (game-engine.js:223). Only the closing log entry shows the new number.
- Interior walls appear with chance 0.08. The comment at game-engine.js:58
  says 10%; the model uses the code's threshold (`Level.GenerateGrid`).
- Nothing refuses calls once the player is defeated. The running flag is
  only cleared, and potions and turn ends keep working
  (`Session.NoGuardAfterDefeat`).

## Model

| member | source | states |
|---|---|---|
| Common.Find | game-engine.js:116 | `Array.prototype.find` as an index: the result is the first position whose element satisfies the test, and it is None exactly when none does |
| Common.RemoveAt | game-engine.js:161 | filtering out one entity by identity keeps every other element in order, and the multiset shrinks by exactly that element |
| Text.ParseNatToString | src/utils.js:40-45 | the decimal text a template literal produces for a count reads back as that count |
| Text.SplitJoin | src/utils.js:49 | joining a non-empty list of words that do not contain the separator, then splitting on it, gives the words back |
| Utils.FormatTime | src/utils.js:34-46 | at an hour or more the text is hours and the minutes within the hour; from one minute it is minutes and the seconds within the minute; below a minute it is whole seconds, computed with floor division |
| Utils.UnitSteps | src/utils.js:35-37 | flooring in stages (ms to seconds to minutes to hours) equals flooring once by the whole unit, and the `> 0` tests are exactly the one-minute and one-hour thresholds |
| Utils.FormatTimeRoundTrip | src/utils.js:34-46 | every output parses back; the branch shown matches the duration's range; hours*60+minutes and minutes*60+seconds recover the floored total, with the smaller unit below 60 |
| Utils.CreatePageUrl | src/utils.js:3-16 | the eight named pages map to their fixed routes; any other name maps to "/" plus its lower-cased form; every result is a lower-case path starting with "/" |
| Utils.PageMapInjective | src/utils.js:4-13 | distinct named pages get distinct routes |
| Utils.CreatePageUrlAsWritten | src/utils.js:15 | the lookup on a plain object literal: outside the inherited prototype names it agrees with the intended route; for an inherited name it yields the inherited member, not a route |
| Utils.ConstructorIsNotAUrl | src/utils.js:15 | "constructor" yields a non-string, where the intended result is "/constructor" |
| Utils.Kept | src/utils.js:49 | `filter(Boolean)` keeps at most one string per argument, each non-empty; nothing is kept exactly when no argument is truthy |
| Utils.KeptOne | src/utils.js:49 | a single argument is kept, rendered, exactly when it is truthy |
| Utils.KeptAppend | src/utils.js:49 | the kept strings of a concatenation are the two halves' kept strings in order; with `KeptOne` this fixes the kept list as the truthy arguments, rendered, in order |
| Utils.Cn | src/utils.js:48-50 | the class string is empty exactly when no argument is truthy |
| Utils.CnOne | src/utils.js:48-50 | a single truthy argument renders whole, spaces included, and a falsy one gives the empty string; with `CnAppend` this fixes cn on every argument list |
| Utils.CnAppend | src/utils.js:48-50 | cn of concatenated arguments is the two class strings joined by one space, or whichever is non-empty |
| Utils.CnSplit | src/utils.js:48-50 | when there is a truthy argument and the kept classes are space-free, splitting the result on spaces gives exactly the kept classes |
| World.IsWalkable | game-engine.js:140-143 | a cell is walkable exactly when it lies on the 16 x 16 grid and is not a wall |
| World.AddMessage | game-engine.js:101-103 | the log grows by exactly one entry with the given text, category and clock reading, and nothing else changes |
| World.CreateEnemy | game-engine.js:91-99 | the enemy stands at the given cell with the given kind, starts at full health, and every catalogue entry has attack at least 2, defense in [0, 5) and positive experience |
| Combat.PlayerDamage | game-engine.js:146-147 | damage dealt is between max(1, 5 - defense) and max(1, 14 - defense) |
| Combat.PlayerDamageCovers | game-engine.js:146-147 | every value in that range is produced by some roll, so the bounds are exact |
| Combat.EnemyDamage | game-engine.js:168 | damage taken is between 1 and max(1, attack - 1) |
| Combat.EnemyDamageCovers | game-engine.js:168 | every value in that range is produced by some roll |
| Combat.EnemyAttackPlayer | game-engine.js:167-176 | only the player's health drops, by exactly `EnemyDamage(roll, attack)`, so by an amount in that range; the run stops exactly when health reaches 0 or below; the log gains exactly `HitEntries`: "Enemy deals N damage!", then "You have been defeated!" when health is gone |
| Combat.DefeatEnemy | game-engine.js:160-165 | exactly that enemy leaves the list; the player gains its experience and twice its maximum health in gold; one success entry |
| Combat.AttackEnemy | game-engine.js:145-158 | the target loses the player's damage; at 0 or below it is removed and the player rewarded, otherwise it stays with reduced health and counter-attacks for exactly `EnemyDamage(counterRoll, attack)`; the player never moves; the first new entry is the combat report |
| Combat.GoblinSurvivesOneHit | game-engine.js:145-158 | a fresh goblin always survives one hit with 18 to 27 health and always strikes back |
| Actions.EnemyAtFirst | game-engine.js:116 | the enemy lookup finds the first enemy on the target cell, and finds none exactly when the cell holds no enemy |
| Actions.ItemAtFirst | game-engine.js:123 | the item lookup finds the first item on the target cell, and finds none exactly when there is none |
| Actions.NpcAtFirst | game-engine.js:129 | the NPC lookup finds the first NPC on the target cell, and finds none exactly when there is none |
| Actions.PickupItem | game-engine.js:178-191 | the item is removed; gold and treasure add their amount to the gold; a potion sets health to min(maximum, health + amount); gold, treasure and potions append exactly one success entry; any other kind changes nothing else and logs nothing |
| Actions.InteractNpc | game-engine.js:193-195 | talking to an NPC only appends one action entry |
| Actions.MovePlayer | game-engine.js:105-138 | a move never changes the grid, the traps or the turn, never restarts a stopped run, keeps health within its maximum, and never puts the player on a wall or off the grid |
| Actions.MoveBlocked | game-engine.js:110-113 | a move onto a wall or off the grid changes nothing but one error entry |
| Actions.MoveIntoEnemy | game-engine.js:115-120 | a move onto an enemy is exactly an attack on the first enemy there, and the player stays put |
| Actions.TakeItemAt | game-engine.js:122-126 | the item step of a move is exactly `pickupItem` on the first item on the target, and does nothing when no item is there |
| Actions.MoveWithoutEnemy | game-engine.js:122-137 | with no enemy on the target, the move is the item step followed by exactly one action entry; an NPC there keeps the player where they were, otherwise the player steps onto the target; the player is otherwise as the item step left them and nothing else changes |
| Actions.ItemTakenBehindNpc | game-engine.js:122-133 | an item and an NPC on the same cell: the item is removed and its full effect applied, but the player does not move |
| Actions.PlaceTrap | game-engine.js:197-206 | a trap is appended exactly when gold is at least 50, costing exactly 50, with exactly one action entry; otherwise only an error entry; gold never goes negative from here |
| Actions.EntryForFirst | game-engine.js:209 | the inventory lookup finds the first entry with that id, and finds none exactly when there is none |
| Actions.UseItem | game-engine.js:208-220 | a missing or used-up entry gives one error entry; a present, available non-potion changes nothing at all; a potion heals 30 capped at maximum, decrements only its own count by one and appends exactly one success entry |
| Actions.Drink | game-engine.js:215-218 | drinking a potion heals 30 up to the maximum, lowers that entry's count by exactly one and leaves the rest of the inventory and player alone, with one success entry |
| EnemyAI.ChaseStep | game-engine.js:235-239 | the chase cell is one king move away and one step closer to the player, and it is the player's cell exactly from distance one |
| EnemyAI.NextPos | game-engine.js:241-243 | the enemy moves to its chase cell exactly when that cell is walkable and not the player's, and then ends one step closer |
| EnemyAI.MoveEnemyAI | game-engine.js:233-247 | only this enemy's position can change; when its chase cell is the player's it does exactly what `enemyAttackPlayer` does (exact damage, flag and log entries), and otherwise the player, flag and log are untouched |
| EnemyAI.RunAI | game-engine.js:226-228 | each enemy ends at its next position; the health lost lies between the number of attackers and the sum of their damage caps; the run stops only on a fatal attack |
| EnemyAI.AIDamageBounds | game-engine.js:167-169 | whatever the draws, a pass costs at least one point per attacker and at most the sum of their caps |
| EnemyAI.RunAIInOrder | game-engine.js:226-228 | enemies act in list order, enemy j using draw j: the health lost is exactly `AIDamage` and the log gains exactly `AttackLog`, each hit's report (and defeat notice) in list order |
| EnemyAI.EndTurn | game-engine.js:222-231 | the turn rises by one; every enemy ends at its next position; the health lost is exactly `AIDamage` over the list with enemy j using draw j; the new entries are exactly `AttackLog` in list order followed by "Turn n"; the run stops only on a fatal attack; grid, items, NPCs and traps are unchanged |
| EnemyAI.EndTurnPursuit | game-engine.js:233-247 | an enemy further than one step with an open chase cell ends exactly one step closer; an adjacent one stays |
| EnemyAI.QuietTurn | game-engine.js:241-246 | with no enemy within one step, a turn costs the player nothing and keeps the running flag |
| EnemyAI.EnemiesCanStack | game-engine.js:241 | enemies ignore each other: two enemies can end a turn on the same cell |
| Level.GenerateGrid | game-engine.js:52-65 | the border is wall; an interior cell other than (8, 8) is wall exactly when its draw is below 0.08; (8, 8) is floor |
| Level.InitializeLevel | game-engine.js:50-89 | a fresh grid with the fixed three enemies at full health, three items and two NPCs, plus exactly the two welcome entries; player, traps, turn and flag are kept |
| Level.NewGame | game-engine.js:7-48 | a new game is at turn 1 and running; the player is at (8, 8) on floor with 100/100 health, 50/100 mana, level 1, no experience, 150 gold and an inventory of 3 potions, 5 spike traps and 2 fire traps; the generated grid, the fixed spawns, no traps, and exactly the two welcome entries as the log |
| Level.SpawnsNotCleared | game-engine.js:64-72 | only (8, 8) is cleared: a spawn cell can be a wall and the player can be walled in |
| Persistence.LoadSaveData | game-engine.js:325-332 | loading replaces exactly the saved parts, so saving right after gives back the loaded snapshot; grid, traps and running flag are kept |
| Persistence.SaveLoadRoundTrip | game-engine.js:314-332 | loading a state's own snapshot changes nothing |
| Persistence.LoadIntoOtherGame | game-engine.js:314-332 | loading a snapshot into another game reproduces the original except for grid, traps and running flag |
| Persistence.SnapshotOmits | game-engine.js:314-323 | the snapshot does not depend on the grid, the traps or the running flag |
| Session.Apply | game-engine.js:105-231 | each move, item use, trap purchase or turn end keeps health within its maximum and the player on floor, leaves the grid alone, only appends to the log and trap list, never restarts a stopped run, and advances the turn only on a turn end |
| Session.Run | game-engine.js:105-231 | over any sequence of moves, item uses, trap purchases and turn ends, the turn equals the start plus the number of turn ends, and every invariant above holds |
| Session.NoGuardAfterDefeat | game-engine.js:208-231 | after defeat a potion still heals and a turn end still advances the counter |

## Left out

- Rendering (`render`, `drawTile`, `drawEntity`, the canvas, tile size, icons and emoji) does not affect game state.
- `isPlayerTurn` and `selectedAction` are set but never read.
- Randomness is an exact real in [0, 1). The model does not represent IEEE-754 rounding of `Math.random() * n`.
- `Date.now()` is a parameter, and one call's entries share one reading.
- Numbers are unbounded integers. JavaScript doubles, `NaN` and non-integer health, gold or `ms` are not modelled.
- Aliasing is not modelled. `getSaveData` copies only the player object, so the engine and the snapshot share the enemy objects, the item and NPC arrays, the inventory entries and the log array. Later play can therefore change a snapshot taken earlier, and the same holds after a load. The model treats a snapshot as a value.
- World.CreateEnemy takes one of the three catalogue kinds. For any other type name, the source spreads `undefined` and builds an enemy with no statistics. The engine never does this, and the model does not represent it.
- `loadSaveData` receives a typed snapshot. Missing or malformed fields in a JSON object are not modelled.
- Persistence.GetSaveData has no contract of its own. What it keeps and omits is stated by the persistence lemmas.
- Session.Apply covers moves, item uses, trap purchases and turn ends only. `initializeLevel` and `loadSaveData` are public too, but they replace the grid or the player wholesale: a re-generated level can put the player on a wall, and a load can set any health. The session invariants do not hold across them.
- EnemyAI.RunAI states positions, damage bounds and the flag in its own contract. The exact damage and the order of the log entries are stated by the RunAIInOrder lemma, and EndTurn restates both.
- Actions.MovePlayer states only the invariants in its own contract. The order of the cases is stated by the MoveBlocked, MoveIntoEnemy and MoveWithoutEnemy lemmas.
- Utils.CreatePageUrl lower-cases ASCII letters only. Unicode case mapping in `toLowerCase` is not modelled, and neither are non-string page names.
- Utils.Cn models string, boolean, number and null/undefined arguments. Object arguments, `NaN` and the rendering of non-integer numbers are not modelled.
- Utils.FormatTime works on integer milliseconds.
- `navigateTo` and `formatDate` are not modelled. They call the router, `window.location` and the locale date formatter.
- The React pages and panels, the servers and the test files are not modelled.

## Findings

| source | as written | input that shows it | evidently intended | confidence | as-written member | corrected member |
|---|---|---|---|---|---|---|
| src/utils.js:15 | `pageMap[pageName]` on a plain object literal also finds names inherited from `Object.prototype`, and a function is truthy, so `\|\|` does not fall back | `createPageUrl("constructor")` returns the `Object` constructor function, not a URL | "/constructor", the lower-cased fallback | not executed | Utils.CreatePageUrlAsWritten, Utils.ConstructorIsNotAUrl | Utils.CreatePageUrl |

=== FILE: actions.dfy ===
/** The player's actions: a single-step move with its collision precedence
    (`movePlayer`), picking up a ground item (`pickupItem`), talking to an NPC
    (`interactNPC`), buying a trap (`placeTrap`) and drinking from the
    inventory (`useItem`). */
module Actions {
  import opened Common
  import opened Text
  import opened World
  import opened Combat

  const TrapCost: int := 50
  const TrapDamage: int := 20
  const PotionHeal: int := 30

  /** The first enemy, item or NPC standing on `p`, as `find` returns it. */
  function EnemyAt(enemies: seq<Enemy>, p: Pos): Option<nat> {
    Find(enemies, (e: Enemy) => e.pos == p)
  }

  function ItemAt(items: seq<Item>, p: Pos): Option<nat> {
    Find(items, (it: Item) => it.pos == p)
  }

  function NpcAt(npcs: seq<Npc>, p: Pos): Option<nat> {
    Find(npcs, (n: Npc) => n.pos == p)
  }

  /** `i` is the first index of an element standing on `p`. */
  predicate FirstEnemyAt(enemies: seq<Enemy>, p: Pos, i: nat) {
    i < |enemies| && enemies[i].pos == p && forall j :: 0 <= j < i ==> enemies[j].pos != p
  }

  predicate FirstItemAt(items: seq<Item>, p: Pos, i: nat) {
    i < |items| && items[i].pos == p && forall j :: 0 <= j < i ==> items[j].pos != p
  }

  lemma EnemyAtFirst(enemies: seq<Enemy>, p: Pos)
    ensures EnemyAt(enemies, p).Some? ==> FirstEnemyAt(enemies, p, EnemyAt(enemies, p).value)
    ensures EnemyAt(enemies, p).None? <==> forall j :: 0 <= j < |enemies| ==> enemies[j].pos != p
  {
    var f := (e: Enemy) => e.pos == p;
    assert forall j :: 0 <= j < |enemies| ==> (f(enemies[j]) <==> enemies[j].pos == p);
  }

  lemma ItemAtFirst(items: seq<Item>, p: Pos)
    ensures ItemAt(items, p).Some? ==> FirstItemAt(items, p, ItemAt(items, p).value)
    ensures ItemAt(items, p).None? <==> forall j :: 0 <= j < |items| ==> items[j].pos != p
  {
    var f := (it: Item) => it.pos == p;
    assert forall j :: 0 <= j < |items| ==> (f(items[j]) <==> items[j].pos == p);
  }

  lemma NpcAtFirst(npcs: seq<Npc>, p: Pos)
    ensures NpcAt(npcs, p).Some? ==>
              var k := NpcAt(npcs, p).value;
              k < |npcs| && npcs[k].pos == p && forall j :: 0 <= j < k ==> npcs[j].pos != p
    ensures NpcAt(npcs, p).None? <==> forall j :: 0 <= j < |npcs| ==> npcs[j].pos != p
  {
    var f := (n: Npc) => n.pos == p;
    assert forall j :: 0 <= j < |npcs| ==> (f(npcs[j]) <==> npcs[j].pos == p);
  }

  /** `pickupItem(item)` on the `i`-th item: the item leaves the list whatever
      its type; gold and treasure add their amount to the purse, a potion heals
      by its amount without exceeding maximum health, any other type does
      nothing more. Position, inventory and everything else stay. */
  function PickupItem(s: GameState, i: nat, now: int): (r: GameState)
    requires i < |s.items|
    ensures r.items == RemoveAt(s.items, i)
    ensures var it := s.items[i];
            && (it.kind.GoldPile? || it.kind.Treasure? ==>
                  r.player == s.player.(gold := s.player.gold + it.amount))
            && (it.kind.Potion? ==>
                  && r.player == s.player.(hp := Min(s.player.maxHp, s.player.hp + it.amount))
                  && (it.amount >= 0 && HpBounded(s) ==> r.player.hp >= s.player.hp))
            && (it.kind.OtherItem? ==> r.player == s.player && r.log == s.log)
    ensures HpBounded(s) ==> HpBounded(r)
    ensures LogExtends(s, r)
    ensures !s.items[i].kind.OtherItem? ==> |NewEntries(s, r)| == 1 && NewEntries(s, r)[0].category == Success
    ensures r.(items := s.items, player := s.player, log := s.log) == s
  {
    var it := s.items[i];
    var s1 := s.(items := RemoveAt(s.items, i));
    match it.kind
    case GoldPile =>
      AddMessage(s1.(player := s1.player.(gold := s1.player.gold + it.amount)),
                 "+" + IntToString(it.amount) + " Gold!", Success, now)
    case Potion =>
      AddMessage(s1.(player := s1.player.(hp := Min(s1.player.maxHp, s1.player.hp + it.amount))),
                 "+" + IntToString(it.amount) + " HP!", Success, now)
    case Treasure =>
      AddMessage(s1.(player := s1.player.(gold := s1.player.gold + it.amount)),
                 "Treasure found! +" + IntToString(it.amount) + " Gold!", Success, now)
    case OtherItem(_) => s1
  }

  /** `interactNPC(npc)`: talking only writes to the log. */
  function InteractNpc(s: GameState, npc: Npc, now: int): (r: GameState)
    ensures LogExtends(s, r) && |NewEntries(s, r)| == 1 && NewEntries(s, r)[0].category == Action
    ensures r.(log := s.log) == s
  {
    AddMessage(s, "You talk to " + npc.name + "...", Action, now)
  }

  /** The item step of a move: the first item on `target`, if any, is picked
      up; with none there, nothing happens. */
  function TakeItemAt(s: GameState, target: Pos, now: int): (r: GameState)
    ensures forall j: nat :: FirstItemAt(s.items, target, j) ==> r == PickupItem(s, j, now)
    ensures (forall j :: 0 <= j < |s.items| ==> s.items[j].pos != target) ==> r == s
  {
    ItemAtFirst(s.items, target);
    match ItemAt(s.items, target)
    case Some(j) => ItemAtUnique(s.items, target, j); PickupItem(s, j, now)
    case None => s
  }

  /** Two first indices of an item on the same cell are the same index. */
  lemma ItemAtUnique(items: seq<Item>, p: Pos, i: nat)
    requires FirstItemAt(items, p, i)
    ensures forall j: nat :: FirstItemAt(items, p, j) ==> j == i
  {
    forall j: nat | FirstItemAt(items, p, j) ensures j == i {
      assert !(j < i) && !(i < j);
    }
  }

  /** The move after the enemy check: pick up any item on the target, then
      stop at an NPC there or step onto the target. */
  function ArriveAt(s: GameState, target: Pos, now: int): GameState
    requires IsWalkable(s.grid, target)
  {
    var s1 := TakeItemAt(s, target, now);
    match NpcAt(s1.npcs, target)
    case Some(k) => InteractNpc(s1, s1.npcs[k], now)
    case None =>
      AddMessage(s1.(player := s1.player.(pos := target)),
                 "Moved to (" + IntToString(target.x) + ", " + IntToString(target.y) + ")", Action, now)
  }

  /** `movePlayer(dx, dy)`; the collision precedence is stated by the lemmas
      below. Whatever happens, the log only grows, health stays within its
      maximum, the player stays on floor, and the grid, traps, turn counter
      and a stopped run are untouched. */
  function MovePlayer(s: GameState, dx: int, dy: int, roll: Roll, counterRoll: Roll, now: int): (r: GameState)
    ensures LogExtends(s, r)
    ensures HpBounded(s) ==> HpBounded(r)
    ensures PlayerOnFloor(s) ==> PlayerOnFloor(r)
    ensures r.grid == s.grid && r.traps == s.traps && r.turn == s.turn
    ensures !s.running ==> !r.running
  {
    var t := Target(s, dx, dy);
    if !IsWalkable(s.grid, t) then
      AddMessage(s, "Cannot move there!", Error, now)
    else
      match EnemyAt(s.enemies, t)
      case Some(i) => AttackEnemy(s, i, roll, counterRoll, now)
      case None =>
        ArriveFacts(s, t, now);
        ArriveAt(s, t, now)
  }

  function Target(s: GameState, dx: int, dy: int): Pos {
    Pos(s.player.pos.x + dx, s.player.pos.y + dy)
  }

  /** A target outside the grid or on a wall is refused: one error entry is
      appended and nothing else changes. */
  lemma MoveBlocked(s: GameState, dx: int, dy: int, roll: Roll, counterRoll: Roll, now: int)
    requires !IsWalkable(s.grid, Target(s, dx, dy))
    ensures var r := MovePlayer(s, dx, dy, roll, counterRoll, now);
            && r.(log := s.log) == s
            && LogExtends(s, r) && |NewEntries(s, r)| == 1 && NewEntries(s, r)[0].category == Error
  {
  }

  /** An enemy on the target comes first: the first such enemy in the list is
      attacked and the player does not move. */
  lemma MoveIntoEnemy(s: GameState, dx: int, dy: int, i: nat, roll: Roll, counterRoll: Roll, now: int)
    requires IsWalkable(s.grid, Target(s, dx, dy))
    requires FirstEnemyAt(s.enemies, Target(s, dx, dy), i)
    ensures var r := MovePlayer(s, dx, dy, roll, counterRoll, now);
            && r == AttackEnemy(s, i, roll, counterRoll, now)
            && r.player.pos == s.player.pos
  {
    var t := Target(s, dx, dy);
    EnemyAtIs(s.enemies, t, i);
    assert MovePlayer(s, dx, dy, roll, counterRoll, now) == AttackEnemy(s, i, roll, counterRoll, now);
  }

  /** The enemy lookup returns exactly the first index standing on `p`. */
  lemma EnemyAtIs(enemies: seq<Enemy>, p: Pos, i: nat)
    requires FirstEnemyAt(enemies, p, i)
    ensures EnemyAt(enemies, p) == Some(i)
  {
    EnemyAtFirst(enemies, p);
    var v := EnemyAt(enemies, p).value;
    assert !(v < i) && !(i < v);
  }

  /** With no enemy on the target the move is the item step followed by one
      action entry: the first item there (if any) is picked up with its full
      effect (`TakeItemAt`); then an NPC there stops the player, who is only
      talked to, or else the player steps onto the target. Nothing else
      changes. */
  lemma MoveWithoutEnemy(s: GameState, dx: int, dy: int, roll: Roll, counterRoll: Roll, now: int)
    requires IsWalkable(s.grid, Target(s, dx, dy))
    requires forall i :: 0 <= i < |s.enemies| ==> s.enemies[i].pos != Target(s, dx, dy)
    ensures var t := Target(s, dx, dy);
            var s1 := TakeItemAt(s, t, now);
            var r := MovePlayer(s, dx, dy, roll, counterRoll, now);
            && r.(player := s1.player, log := s1.log) == s1
            && r.player == s1.player.(pos := r.player.pos)
            && LogExtends(s1, r) && |NewEntries(s1, r)| == 1 && NewEntries(s1, r)[0].category == Action
            && ((exists k :: 0 <= k < |s.npcs| && s.npcs[k].pos == t) ==> r.player.pos == s.player.pos)
            && ((forall k :: 0 <= k < |s.npcs| ==> s.npcs[k].pos != t) ==> r.player.pos == t)
  {
    var t := Target(s, dx, dy);
    EnemyAtFirst(s.enemies, t);
    ArriveFacts(s, t, now);
  }

  /** An item under an NPC is consumed although the NPC then blocks the step. */
  lemma ItemTakenBehindNpc(s: GameState, dx: int, dy: int, j: nat, k: nat, roll: Roll, counterRoll: Roll, now: int)
    requires IsWalkable(s.grid, Target(s, dx, dy))
    requires forall i :: 0 <= i < |s.enemies| ==> s.enemies[i].pos != Target(s, dx, dy)
    requires FirstItemAt(s.items, Target(s, dx, dy), j)
    requires k < |s.npcs| && s.npcs[k].pos == Target(s, dx, dy)
    ensures var r := MovePlayer(s, dx, dy, roll, counterRoll, now);
            && r.items == RemoveAt(s.items, j)
            && r.player == PickupItem(s, j, now).player
  {
    MoveWithoutEnemy(s, dx, dy, roll, counterRoll, now);
  }

  lemma ArriveFacts(s: GameState, t: Pos, now: int)
    requires IsWalkable(s.grid, t)
    ensures var s1 := TakeItemAt(s, t, now);
            var r := ArriveAt(s, t, now);
            && r.(player := s1.player, log := s1.log) == s1
            && r.player == s1.player.(pos := r.player.pos)
            && LogExtends(s1, r) && |NewEntries(s1, r)| == 1 && NewEntries(s1, r)[0].category == Action
            && ((exists k :: 0 <= k < |s.npcs| && s.npcs[k].pos == t) ==> r.player.pos == s.player.pos)
            && ((forall k :: 0 <= k < |s.npcs| ==> s.npcs[k].pos != t) ==> r.player.pos == t)
            && LogExtends(s, r)
            && (HpBounded(s) ==> HpBounded(r))
            && (PlayerOnFloor(s) ==> PlayerOnFloor(r))
  {
    ItemAtFirst(s.items, t);
    var s1 := TakeItemAt(s, t, now);
    assert s1.npcs == s.npcs && s1.player.pos == s.player.pos && LogExtends(s, s1);
    assert HpBounded(s) ==> HpBounded(s1);
    NpcAtFirst(s1.npcs, t);
    var r := ArriveAt(s, t, now);
    LogChain(s, s1, r);
  }

  /** `placeTrap(x, y, trapType)`: with at least 50 gold, the purse loses
      exactly 50 and one active trap of damage 20 is appended at (x, y),
      wherever that is; with less, gold and traps stay and an error is logged.
      Nothing else changes. */
  function PlaceTrap(s: GameState, x: int, y: int, kind: string, now: int): (r: GameState)
    ensures s.player.gold >= TrapCost <==> r.traps == s.traps + [Trap(Pos(x, y), kind, true, TrapDamage)]
    ensures s.player.gold >= TrapCost ==>
              && r.player == s.player.(gold := s.player.gold - TrapCost)
              && LogExtends(s, r) && |NewEntries(s, r)| == 1 && NewEntries(s, r)[0].category == Action
    ensures s.player.gold < TrapCost ==>
              && r.player == s.player && r.traps == s.traps
              && LogExtends(s, r) && |NewEntries(s, r)| == 1 && NewEntries(s, r)[0].category == Error
    ensures s.player.gold >= 0 ==> r.player.gold >= 0
    ensures LogExtends(s, r)
    ensures r.(player := s.player, traps := s.traps, log := s.log) == s
  {
    if s.player.gold < 50 then
      AddMessage(s, "Not enough gold!", Error, now)
    else
      AddMessage(s.(player := s.player.(gold := s.player.gold - 50),
                    traps := s.traps + [Trap(Pos(x, y), kind, true, 20)]),
                 "Trap placed!", Action, now)
  }

  /** The first inventory entry with the given id. */
  function EntryFor(inventory: seq<InventoryEntry>, id: string): Option<nat> {
    Find(inventory, (e: InventoryEntry) => e.id == id)
  }

  lemma EntryForFirst(inventory: seq<InventoryEntry>, id: string)
    ensures EntryFor(inventory, id).Some? ==>
              var k := EntryFor(inventory, id).value;
              k < |inventory| && inventory[k].id == id && forall j :: 0 <= j < k ==> inventory[j].id != id
    ensures EntryFor(inventory, id).None? <==> forall j :: 0 <= j < |inventory| ==> inventory[j].id != id
  {
    var f := (e: InventoryEntry) => e.id == id;
    assert forall j :: 0 <= j < |inventory| ==> (f(inventory[j]) <==> inventory[j].id == id);
  }

  /** The inventory lookup returns exactly the first entry with that id. */
  lemma EntryForIs(inventory: seq<InventoryEntry>, id: string, k: nat)
    requires k < |inventory| && inventory[k].id == id
    requires forall j :: 0 <= j < k ==> inventory[j].id != id
    ensures EntryFor(inventory, id) == Some(k)
  {
    EntryForFirst(inventory, id);
    var v := EntryFor(inventory, id).value;
    assert !(v < k) && !(k < v);
  }

  /** `useItem(itemId)`. The first entry with that id decides: when there is
      none or its count is not positive, only one error entry is logged. A
      potion heals 30 without exceeding maximum health and its count drops by
      exactly one, every other entry untouched. Any other available item
      changes nothing at all. */
  function UseItem(s: GameState, id: string, now: int): (r: GameState)
    ensures EntryFor(s.player.inventory, id).None? ||
            s.player.inventory[EntryFor(s.player.inventory, id).value].count <= 0 ==>
              && r.(log := s.log) == s
              && LogExtends(s, r) && |NewEntries(s, r)| == 1 && NewEntries(s, r)[0].category == Error
    ensures && EntryFor(s.player.inventory, id).Some?
            && s.player.inventory[EntryFor(s.player.inventory, id).value].count > 0
            && id != "potion"
            ==> r == s
    ensures id == "potion" && EntryFor(s.player.inventory, id).Some? &&
            s.player.inventory[EntryFor(s.player.inventory, id).value].count > 0 ==>
              var k := EntryFor(s.player.inventory, id).value;
              && r.player.hp == Min(s.player.maxHp, s.player.hp + PotionHeal)
              && |r.player.inventory| == |s.player.inventory|
              && r.player.inventory[k].count == s.player.inventory[k].count - 1
              && r.player.inventory[k].(count := s.player.inventory[k].count) == s.player.inventory[k]
              && (forall j :: 0 <= j < |s.player.inventory| && j != k ==>
                    r.player.inventory[j] == s.player.inventory[j])
              && r.player.(hp := s.player.hp, inventory := s.player.inventory) == s.player
              && LogExtends(s, r) && |NewEntries(s, r)| == 1 && NewEntries(s, r)[0].category == Success
    ensures HpBounded(s) ==> HpBounded(r)
    ensures LogExtends(s, r)
    ensures r.(player := s.player, log := s.log) == s
  {
    EntryForFirst(s.player.inventory, id);
    match EntryFor(s.player.inventory, id)
    case None => AddMessage(s, "Item not available!", Error, now)
    case Some(k) =>
      var entry := s.player.inventory[k];
      if entry.count <= 0 then AddMessage(s, "Item not available!", Error, now)
      else if entry.id == "potion" then Drink(s, k, now)
      else s
  }

  /** Drinking the potion held in inventory entry `k`: 30 health up to the
      maximum, that entry's count down by one, one success entry. */
  function Drink(s: GameState, k: nat, now: int): (r: GameState)
    requires k < |s.player.inventory|
    ensures r.player.hp == Min(s.player.maxHp, s.player.hp + PotionHeal)
    ensures r.player.inventory == s.player.inventory[k := s.player.inventory[k].(count := s.player.inventory[k].count - 1)]
    ensures r.player.(hp := s.player.hp, inventory := s.player.inventory) == s.player
    ensures LogExtends(s, r) && |NewEntries(s, r)| == 1 && NewEntries(s, r)[0].category == Success
    ensures r.(player := s.player, log := s.log) == s
  {
    var entry := s.player.inventory[k];
    var p := s.player.(hp := Min(s.player.maxHp, s.player.hp + 30),
                       inventory := s.player.inventory[k := entry.(count := entry.count - 1)]);
    AddMessage(s.(player := p), "Potion used! +30 HP", Success, now)
  }
}

=== FILE: combat.dfy ===
/** Melee combat: the player's attack on an enemy, the enemy's counterattack,
    and the removal and reward of a defeated enemy (`attackEnemy`,
    `enemyAttackPlayer`, `defeatEnemy`). */
module Combat {
  import opened Common
  import opened Text
  import opened World

  /** `Math.floor(roll * n)` for a draw in [0, 1) and a positive `n` lies in
      [0, n - 1]. */
  lemma ScaledFloor(roll: Roll, n: int)
    requires n > 0
    ensures 0 <= (roll * n as real).Floor < n
  {
    var x := roll * n as real;
    assert 0.0 <= x;
    assert n as real - x == (1.0 - roll) * n as real;
    assert (1.0 - roll) * n as real > 0.0;
  }

  /** For a non-positive `n` the product lies in (n, 0], so its floor in [n, 0]. */
  lemma ScaledFloorNonPositive(roll: Roll, n: int)
    requires n <= 0
    ensures (roll * n as real).Floor <= 0
  {
    var x := roll * n as real;
    assert x == -(roll * (-n) as real);
    assert roll * (-n) as real >= 0.0;
  }

  lemma EnemyRollBound(roll: Roll, attack: int)
    ensures attack > 0 ==> 0 <= (roll * attack as real).Floor < attack
    ensures attack <= 0 ==> (roll * attack as real).Floor <= 0
  {
    if attack > 0 { ScaledFloor(roll, attack); } else { ScaledFloorNonPositive(roll, attack); }
  }

  /** The player's hit: `max(1, max(5, floor(roll * 15)) - defense)`. The
      roll part lies in [5, 14], so the hit lies in
      [max(1, 5 - defense), max(1, 14 - defense)]. */
  function PlayerDamage(roll: Roll, defense: int): (d: int)
    ensures Max(1, 5 - defense) <= d <= Max(1, 14 - defense)
  {
    ScaledFloor(roll, 15);
    var damage := Max(5, (roll * 15.0).Floor);
    Max(1, damage - defense)
  }

  /** Every hit in that range is produced by some draw. */
  lemma PlayerDamageCovers(defense: int, d: int)
    requires Max(1, 5 - defense) <= d <= Max(1, 14 - defense)
    ensures exists roll: Roll :: PlayerDamage(roll, defense) == d
  {
    if d + defense <= 5 || d == 1 {
      assert PlayerDamage(0.0, defense) == d;
    } else {
      var k := d + defense;
      assert 5 < k <= 14;
      var roll: Roll := k as real / 15.0;
      assert (roll * 15.0) == k as real;
      assert PlayerDamage(roll, defense) == d;
    }
  }

  /** The enemy's hit: `max(1, floor(roll * attack))`, between 1 and
      `max(1, attack - 1)`; never defense-reduced. */
  function EnemyDamage(roll: Roll, attack: int): (d: int)
    ensures 1 <= d <= Max(1, attack - 1)
  {
    EnemyRollBound(roll, attack);
    Max(1, (roll * attack as real).Floor)
  }

  /** Every hit in that range is produced by some draw. */
  lemma EnemyDamageCovers(attack: int, d: int)
    requires 1 <= d <= Max(1, attack - 1)
    ensures exists roll: Roll :: EnemyDamage(roll, attack) == d
  {
    if d == 1 && attack <= 1 {
      assert EnemyDamage(0.0, attack) == d;
    } else {
      assert 1 <= d < attack;
      var roll: Roll := d as real / attack as real;
      assert roll * attack as real == d as real;
      assert EnemyDamage(roll, attack) == d;
    }
  }

  /** What one enemy hit of `damage` on a player with `hp` health writes to
      the log: the damage report, then the defeat notice when the hit leaves
      no health. */
  function HitEntries(hp: int, damage: int, now: int): seq<Message> {
    [Message("Enemy deals " + IntToString(damage) + " damage!", Error, now)]
    + (if hp - damage <= 0 then [Message("You have been defeated!", Error, now)] else [])
  }

  /** `enemyAttackPlayer(enemy)`: the player loses one enemy hit and an error
      entry records it; the run stops exactly when health is no longer
      positive, and nothing restarts it. Only health, the flag and the log
      change. */
  function EnemyAttackPlayer(s: GameState, e: Enemy, roll: Roll, now: int): (r: GameState)
    ensures r.player == s.player.(hp := s.player.hp - EnemyDamage(roll, e.attack))
    ensures 1 <= s.player.hp - r.player.hp <= Max(1, e.attack - 1)
    ensures r.running == (s.running && r.player.hp > 0)
    ensures LogExtends(s, r)
    ensures NewEntries(s, r) == HitEntries(s.player.hp, EnemyDamage(roll, e.attack), now)
    ensures |NewEntries(s, r)| == (if r.player.hp > 0 then 1 else 2)
    ensures forall k :: 0 <= k < |NewEntries(s, r)| ==> NewEntries(s, r)[k].category == Error
    ensures r.(player := s.player, running := s.running, log := s.log) == s
  {
    var damage := EnemyDamage(roll, e.attack);
    var hit := s.(player := s.player.(hp := s.player.hp - damage));
    var r1 := AddMessage(hit, "Enemy deals " + IntToString(damage) + " damage!", Error, now);
    if r1.player.hp <= 0 then
      AddMessage(r1.(running := false), "You have been defeated!", Error, now)
    else
      r1
  }

  /** The gold a defeated enemy yields: `Math.floor(maxHp * 2)`. */
  function Bounty(e: Enemy): int {
    2 * e.maxHp
  }

  /** `defeatEnemy(enemy)`: exactly that enemy leaves the list (the others keep
      their order), and the player gains its experience and twice its maximum
      health in gold, once. */
  function DefeatEnemy(s: GameState, i: nat, now: int): (r: GameState)
    requires i < |s.enemies|
    ensures r.enemies == RemoveAt(s.enemies, i)
    ensures multiset(r.enemies) + multiset{s.enemies[i]} == multiset(s.enemies)
    ensures r.player == s.player.(exp := s.player.exp + s.enemies[i].exp,
                                  gold := s.player.gold + 2 * s.enemies[i].maxHp)
    ensures LogExtends(s, r) && |NewEntries(s, r)| == 1 && NewEntries(s, r)[0].category == Success
    ensures r.(enemies := s.enemies, player := s.player, log := s.log) == s
  {
    var e := s.enemies[i];
    var r1 := s.(enemies := RemoveAt(s.enemies, i),
                 player := s.player.(exp := s.player.exp + e.exp, gold := s.player.gold + Bounty(e)));
    AddMessage(r1, "Victory! +" + IntToString(e.exp) + " EXP, +" + IntToString(Bounty(e)) + " Gold",
               Success, now)
  }

  /** `attackEnemy(enemy)` on the `i`-th enemy. Its health drops by one
      player hit. At zero or below it is removed and rewarded with no
      counterattack; otherwise it stays in place, damaged, and strikes back
      exactly once. */
  function AttackEnemy(s: GameState, i: nat, roll: Roll, counterRoll: Roll, now: int): (r: GameState)
    requires i < |s.enemies|
    ensures var e := s.enemies[i];
            var left := e.hp - PlayerDamage(roll, e.defense);
            && (left <= 0 ==>
                  && r.enemies == RemoveAt(s.enemies, i)
                  && r.player == s.player.(exp := s.player.exp + e.exp, gold := s.player.gold + 2 * e.maxHp)
                  && r.running == s.running)
            && (left > 0 ==>
                  && r.enemies == s.enemies[i := e.(hp := left)]
                  && r.player == s.player.(hp := s.player.hp - EnemyDamage(counterRoll, e.attack))
                  && 1 <= s.player.hp - r.player.hp <= Max(1, e.attack - 1)
                  && r.running == (s.running && r.player.hp > 0))
    ensures r.player.pos == s.player.pos && r.player.hp <= s.player.hp
    ensures LogExtends(s, r) && |NewEntries(s, r)| >= 2 && NewEntries(s, r)[0].category == Combat
    ensures r.(enemies := s.enemies, player := s.player, running := s.running, log := s.log) == s
  {
    var e := s.enemies[i];
    var damaged := e.(hp := e.hp - PlayerDamage(roll, e.defense));
    var r1 := AddMessage(s.(enemies := s.enemies[i := damaged]),
                         "Hit enemy for " + IntToString(PlayerDamage(roll, e.defense)) + " damage!",
                         Combat, now);
    if damaged.hp <= 0 then
      var r := DefeatEnemy(r1, i, now);
      LogChain(s, r1, r);
      RemoveAtUpdate(s.enemies, i, damaged);
      r
    else
      var r := EnemyAttackPlayer(r1, damaged, counterRoll, now);
      LogChain(s, r1, r);
      r
  }

  /** One hit on a fresh goblin (30 health, defense 2) leaves it alive with
      health in [18, 27], and it counterattacks. */
  lemma GoblinSurvivesOneHit(s: GameState, i: nat, roll: Roll, counterRoll: Roll, now: int)
    requires i < |s.enemies| && s.enemies[i] == CreateEnemy(s.enemies[i].pos.x, s.enemies[i].pos.y, Goblin)
    ensures var r := AttackEnemy(s, i, roll, counterRoll, now);
            && |r.enemies| == |s.enemies|
            && 18 <= r.enemies[i].hp <= 27
            && r.player.hp < s.player.hp
  {
  }
}

=== FILE: common.dfy ===
/** Small generic helpers shared by the engine model: an optional value, the
    first-match search that JavaScript's `Array.prototype.find` performs, the
    removal of one element that `filter(e => e !== x)` performs when `x` is an
    element of the array, and the integer helpers `Math.max`, `Math.min` and
    `Math.sign` restricted to integers. */
module Common {

  datatype Option<+T> = None | Some(value: T)

  function Max(a: int, b: int): (r: int)
    ensures r >= a && r >= b
    ensures r == a || r == b
  {
    if a >= b then a else b
  }

  function Min(a: int, b: int): (r: int)
    ensures r <= a && r <= b
    ensures r == a || r == b
  {
    if a <= b then a else b
  }

  /** `Math.sign` on integers. */
  function Sign(a: int): (r: int)
    ensures -1 <= r <= 1
    ensures (r > 0 <==> a > 0) && (r < 0 <==> a < 0)
  {
    if a > 0 then 1 else if a < 0 then -1 else 0
  }

  function Abs(a: int): (r: nat)
    ensures r == a || r == -a
  {
    if a < 0 then -a else a
  }

  /** The index of the first element satisfying `p`, as `find` returns the
      first matching element (and `undefined` when there is none). */
  function Find<T>(s: seq<T>, p: T -> bool): (r: Option<nat>)
    ensures r.Some? ==> r.value < |s| && p(s[r.value])
    ensures r.Some? ==> forall j :: 0 <= j < r.value ==> !p(s[j])
    ensures r.None? <==> forall j :: 0 <= j < |s| ==> !p(s[j])
    decreases |s|
  {
    if |s| == 0 then None
    else if p(s[0]) then Some(0)
    else
      match Find(s[1..], p)
      case None => None
      case Some(k) => Some(k + 1)
  }

  /** The sequence without its `i`-th element, order otherwise kept. */
  function RemoveAt<T>(s: seq<T>, i: nat): (r: seq<T>)
    requires i < |s|
    ensures |r| == |s| - 1
    ensures forall j :: 0 <= j < i ==> r[j] == s[j]
    ensures forall j :: i <= j < |r| ==> r[j] == s[j + 1]
    ensures multiset(r) + multiset{s[i]} == multiset(s)
  {
    assert s == s[..i] + [s[i]] + s[i + 1..];
    s[..i] + s[i + 1..]
  }

  /** Removing a position forgets whatever was stored there. */
  lemma RemoveAtUpdate<T>(s: seq<T>, i: nat, x: T)
    requires i < |s|
    ensures RemoveAt(s[i := x], i) == RemoveAt(s, i)
  {
  }
}

=== FILE: enemy_ai.dfy ===
/** Turn advancement and the enemies' greedy pursuit (`endTurn`,
    `moveEnemyAI`). */
module EnemyAI {
  import opened Common
  import opened Text
  import opened World
  import opened Combat

  /** The cell an enemy at `e` heads for: one step towards `p` on each axis,
      by the sign of the difference. */
  function Chase(e: Pos, p: Pos): Pos {
    Pos(e.x + Sign(p.x - e.x), e.y + Sign(p.y - e.y))
  }

  /** Chebyshev (king-move) distance. */
  function Distance(a: Pos, b: Pos): nat {
    Max(Abs(a.x - b.x), Abs(a.y - b.y))
  }

  /** The chase step is a single king move that brings the enemy exactly one
      step closer, and reaches the target precisely from distance one. */
  lemma ChaseStep(e: Pos, p: Pos)
    ensures Distance(Chase(e, p), e) <= 1
    ensures e != p ==> Distance(Chase(e, p), p) == Distance(e, p) - 1
    ensures Chase(e, p) == p <==> Distance(e, p) <= 1
  {
  }

  /** An enemy at `e` attacks rather than moves exactly when its chase cell is
      the player's. */
  predicate Strikes(e: Pos, p: Pos) {
    Chase(e, p) == p
  }

  /** Where an enemy at `e` ends its turn: on its chase cell when that is
      walkable and not the player's, otherwise where it was. */
  function NextPos(g: Grid, p: Pos, e: Pos): (r: Pos)
    ensures IsWalkable(g, Chase(e, p)) && Chase(e, p) != p ==> r == Chase(e, p)
    ensures !IsWalkable(g, Chase(e, p)) || Chase(e, p) == p ==> r == e
    ensures Distance(r, e) <= 1 && (r != e ==> Distance(r, p) == Distance(e, p) - 1)
  {
    ChaseStep(e, p);
    var c := Chase(e, p);
    if IsWalkable(g, c) && c != p then c else e
  }

  /** `moveEnemyAI(enemy)` for the `i`-th enemy. Only that enemy's position can
      change, to `NextPos`; it attacks exactly when its chase cell is the
      player's, and otherwise the player, flag and log are untouched. Other
      enemies and NPCs are not consulted, so enemies may share a cell. */
  function MoveEnemyAI(s: GameState, i: nat, roll: Roll, now: int): (r: GameState)
    requires i < |s.enemies|
    ensures var e := s.enemies[i];
            r.enemies == s.enemies[i := e.(pos := NextPos(s.grid, s.player.pos, e.pos))]
    ensures Strikes(s.enemies[i].pos, s.player.pos) ==>
              && r.player.hp == s.player.hp - EnemyDamage(roll, s.enemies[i].attack)
              && 1 <= s.player.hp - r.player.hp <= Max(1, s.enemies[i].attack - 1)
              && r.running == (s.running && r.player.hp > 0)
    ensures Strikes(s.enemies[i].pos, s.player.pos) ==> r == EnemyAttackPlayer(s, s.enemies[i], roll, now)
    ensures !Strikes(s.enemies[i].pos, s.player.pos) ==>
              r.player == s.player && r.running == s.running && r.log == s.log
    ensures r.player == s.player.(hp := r.player.hp)
    ensures LogExtends(s, r)
    ensures r.(enemies := s.enemies, player := s.player, running := s.running, log := s.log) == s
  {
    var e := s.enemies[i];
    var c := Chase(e.pos, s.player.pos);
    if IsWalkable(s.grid, c) && !(c == s.player.pos) then
      s.(enemies := s.enemies[i := e.(pos := c)])
    else if c == s.player.pos then
      assert s.enemies[i := e.(pos := NextPos(s.grid, s.player.pos, e.pos))] == s.enemies;
      EnemyAttackPlayer(s, e, roll, now)
    else
      assert s.enemies[i := e.(pos := NextPos(s.grid, s.player.pos, e.pos))] == s.enemies;
      s
  }

  /** How many of `es` attack a player standing at `p`. */
  function Strikers(es: seq<Enemy>, p: Pos): nat
    decreases |es|
  {
    if |es| == 0 then 0
    else (if Strikes(es[0].pos, p) then 1 else 0) + Strikers(es[1..], p)
  }

  /** The most health those attacks can take. */
  function StrikeCap(es: seq<Enemy>, p: Pos): nat
    decreases |es|
  {
    if |es| == 0 then 0
    else (if Strikes(es[0].pos, p) then Max(1, es[0].attack - 1) else 0) + StrikeCap(es[1..], p)
  }

  lemma {:induction false} NoStrikersNoCap(es: seq<Enemy>, p: Pos)
    ensures Strikers(es, p) == 0 ==> StrikeCap(es, p) == 0
    decreases |es|
  {
    if |es| > 0 {
      NoStrikersNoCap(es[1..], p);
    }
  }

  /** The health the enemies `es`, which stand at list indices `k`, `k + 1`,
      and so on, take from a player at `p` in one pass: each attacker deals
      `EnemyDamage` of the draw for its own index. */
  function AIDamage(es: seq<Enemy>, p: Pos, draws: nat -> Roll, k: nat): int
    decreases |es|
  {
    if |es| == 0 then 0
    else (if Strikes(es[0].pos, p) then EnemyDamage(draws(k), es[0].attack) else 0)
         + AIDamage(es[1..], p, draws, k + 1)
  }

  /** The entries that pass writes, attacker by attacker in list order, for a
      player who starts it with `hp` health: each hit's report, followed by
      the defeat notice whenever that hit leaves no health. */
  function AttackLog(es: seq<Enemy>, p: Pos, draws: nat -> Roll, k: nat, hp: int, now: int): seq<Message>
    decreases |es|
  {
    if |es| == 0 then []
    else if Strikes(es[0].pos, p) then
      var d := EnemyDamage(draws(k), es[0].attack);
      HitEntries(hp, d, now) + AttackLog(es[1..], p, draws, k + 1, hp - d, now)
    else AttackLog(es[1..], p, draws, k + 1, hp, now)
  }

  /** Whatever the draws, a pass costs at least one point per attacker and at
      most the sum of the attackers' caps. */
  lemma {:induction false} AIDamageBounds(es: seq<Enemy>, p: Pos, draws: nat -> Roll, k: nat)
    ensures Strikers(es, p) <= AIDamage(es, p, draws, k) <= StrikeCap(es, p)
    decreases |es|
  {
    if |es| > 0 {
      AIDamageBounds(es[1..], p, draws, k + 1);
    }
  }

  /** The enemies from index `i` on take their turns in list order. */
  function RunAI(s: GameState, i: nat, draws: nat -> Roll, now: int): (r: GameState)
    requires i <= |s.enemies|
    ensures |r.enemies| == |s.enemies|
    ensures forall j :: 0 <= j < i ==> r.enemies[j] == s.enemies[j]
    ensures forall j :: i <= j < |s.enemies| ==>
              r.enemies[j] == s.enemies[j].(pos := NextPos(s.grid, s.player.pos, s.enemies[j].pos))
    ensures r.player == s.player.(hp := r.player.hp)
    ensures Strikers(s.enemies[i..], s.player.pos) <= s.player.hp - r.player.hp
                                                  <= StrikeCap(s.enemies[i..], s.player.pos)
    ensures r.running == (s.running && (r.player.hp > 0 || Strikers(s.enemies[i..], s.player.pos) == 0))
    ensures LogExtends(s, r)
    ensures r.(enemies := s.enemies, player := s.player, running := s.running, log := s.log) == s
    decreases |s.enemies| - i
  {
    if i == |s.enemies| then s
    else
      var s1 := MoveEnemyAI(s, i, draws(i), now);
      var r := RunAI(s1, i + 1, draws, now);
      assert s1.enemies[i + 1..] == s.enemies[i + 1..];
      assert s.enemies[i..][1..] == s.enemies[i + 1..];
      NoStrikersNoCap(s.enemies[i + 1..], s.player.pos);
      LogChain(s, s1, r);
      r
  }

  /** The pass goes through the enemies in list order, enemy `j` using draw
      `j`: the player's loss is exactly `AIDamage` and the log gains exactly
      `AttackLog`, attacker by attacker. */
  lemma {:induction false} RunAIInOrder(s: GameState, i: nat, draws: nat -> Roll, now: int)
    requires i <= |s.enemies|
    ensures var r := RunAI(s, i, draws, now);
            && s.player.hp - r.player.hp == AIDamage(s.enemies[i..], s.player.pos, draws, i)
            && NewEntries(s, r) == AttackLog(s.enemies[i..], s.player.pos, draws, i, s.player.hp, now)
    decreases |s.enemies| - i
  {
    if i < |s.enemies| {
      var s1 := MoveEnemyAI(s, i, draws(i), now);
      var r := RunAI(s1, i + 1, draws, now);
      RunAIInOrder(s1, i + 1, draws, now);
      assert s1.enemies[i + 1..] == s.enemies[i + 1..];
      assert s.enemies[i..][1..] == s.enemies[i + 1..];
      LogChain(s, s1, r);
      if Strikes(s.enemies[i].pos, s.player.pos) {
        assert NewEntries(s, s1) == HitEntries(s.player.hp, EnemyDamage(draws(i), s.enemies[i].attack), now);
      } else {
        assert s1.player == s.player && NewEntries(s, s1) == [];
      }
    }
  }

  /** `endTurn()`: the counter rises by exactly one before any enemy acts;
      then every enemy, in list order, either steps to `NextPos` or (when its
      chase cell is the player's) hits the player, nothing else about it
      changing; finally the new turn number is logged. Each attacker costs
      at least one health point; the run stops only when an attack leaves the
      player at zero or below. The turn advances whether or not the run has
      stopped. */
  function EndTurn(s: GameState, draws: nat -> Roll, now: int): (r: GameState)
    ensures r.turn == s.turn + 1
    ensures |r.enemies| == |s.enemies|
    ensures forall j :: 0 <= j < |s.enemies| ==>
              r.enemies[j] == s.enemies[j].(pos := NextPos(s.grid, s.player.pos, s.enemies[j].pos))
    ensures r.player == s.player.(hp := r.player.hp)
    ensures Strikers(s.enemies, s.player.pos) <= s.player.hp - r.player.hp <= StrikeCap(s.enemies, s.player.pos)
    ensures r.running == (s.running && (r.player.hp > 0 || Strikers(s.enemies, s.player.pos) == 0))
    ensures s.player.hp - r.player.hp == AIDamage(s.enemies, s.player.pos, draws, 0)
    ensures LogExtends(s, r) && |NewEntries(s, r)| >= 1
    ensures NewEntries(s, r) == AttackLog(s.enemies, s.player.pos, draws, 0, s.player.hp, now)
                                + [Message("Turn " + IntToString(s.turn + 1), Action, now)]
    ensures NewEntries(s, r)[|NewEntries(s, r)| - 1] == Message("Turn " + IntToString(s.turn + 1), Action, now)
    ensures r.grid == s.grid && r.items == s.items && r.npcs == s.npcs && r.traps == s.traps
  {
    var s1 := s.(turn := s.turn + 1);
    var s2 := RunAI(s1, 0, draws, now);
    assert s1.enemies[0..] == s.enemies;
    RunAIInOrder(s1, 0, draws, now);
    var r := AddMessage(s2, "Turn " + IntToString(s2.turn), Action, now);
    LogChain(s1, s2, r);
    r
  }

  /** Greedy pursuit: an enemy that is not yet next to the player and whose
      chase cell is open ends the turn exactly one step closer; one that is
      next to the player stays where it is. */
  lemma EndTurnPursuit(s: GameState, draws: nat -> Roll, now: int, j: nat)
    requires j < |s.enemies|
    ensures var e := s.enemies[j].pos;
            var p := s.player.pos;
            var r := EndTurn(s, draws, now);
            && (Distance(e, p) > 1 && IsWalkable(s.grid, Chase(e, p)) ==>
                  Distance(r.enemies[j].pos, p) == Distance(e, p) - 1)
            && (Distance(e, p) <= 1 ==> r.enemies[j].pos == e)
  {
    ChaseStep(s.enemies[j].pos, s.player.pos);
  }

  /** With nobody in reach, a turn costs the player nothing and leaves the
      running flag as it was. */
  lemma QuietTurn(s: GameState, draws: nat -> Roll, now: int)
    requires forall j :: 0 <= j < |s.enemies| ==> Distance(s.enemies[j].pos, s.player.pos) > 1
    ensures var r := EndTurn(s, draws, now);
            r.player == s.player && r.running == s.running
  {
    NoStrikers(s.enemies, s.player.pos);
  }

  lemma {:induction false} NoStrikers(es: seq<Enemy>, p: Pos)
    requires forall j :: 0 <= j < |es| ==> Distance(es[j].pos, p) > 1
    ensures Strikers(es, p) == 0 && StrikeCap(es, p) == 0
    decreases |es|
  {
    if |es| > 0 {
      ChaseStep(es[0].pos, p);
      NoStrikers(es[1..], p);
    }
  }

  /** A grid of floor enclosed by the perimeter wall. */
  function OpenGrid(): Grid {
    seq(Height, y => seq(Width, x => if x == 0 || y == 0 || x == Width - 1 || y == Height - 1 then Wall else Floor))
  }

  /** Enemies ignore each other: a goblin at (4, 4) and an orc at (4, 6)
      chasing a player at (8, 5) across open floor end the turn on the same
      cell, (5, 5). */
  lemma EnemiesCanStack(s: GameState, draws: nat -> Roll, now: int)
    requires s.grid == OpenGrid()
    requires s.player.pos == Pos(8, 5)
    requires s.enemies == [CreateEnemy(4, 4, Goblin), CreateEnemy(4, 6, Orc)]
    ensures var r := EndTurn(s, draws, now);
            r.enemies[0].pos == r.enemies[1].pos == Pos(5, 5)
  {
    assert IsWalkable(s.grid, Pos(5, 5));
  }
}

=== FILE: level.dfy ===
/** Level generation and the engine's starting state (`initializeLevel` and
    the constructor). */
module Level {
  import opened World

  /** The chance that an interior cell becomes a wall. */
  const WallChance: real := 0.08

  predicate OnBorder(x: int, y: int) {
    x == 0 || x == Width - 1 || y == 0 || y == Height - 1
  }

  predicate InGrid(x: int, y: int) {
    0 <= x < Width && 0 <= y < Height
  }

  /** The tile grid `initializeLevel` builds: the border is wall, every other
      cell is wall when its draw falls below 0.08, and the player's start cell
      (8, 8) is then cleared. */
  function GenerateGrid(cellRoll: (int, int) -> Roll): (g: Grid)
    ensures forall x, y :: InGrid(x, y) && OnBorder(x, y) ==> g[y][x] == Wall
    ensures g[8][8] == Floor
    ensures forall x, y :: InGrid(x, y) && !OnBorder(x, y) && (x != 8 || y != 8) ==>
              (g[y][x] == Wall <==> cellRoll(x, y) < WallChance)
  {
    var g := seq(Height, y => seq(Width, x => if OnBorder(x, y) || cellRoll(x, y) < WallChance then Wall else Floor));
    g[8 := g[8][8 := Floor]]
  }

  const Spawns: seq<Enemy> := [
    CreateEnemy(2, 2, Goblin),
    CreateEnemy(14, 3, Orc),
    CreateEnemy(3, 14, Skeleton)
  ]

  const GroundItems: seq<Item> := [
    Item(Pos(5, 5), GoldPile, 50),
    Item(Pos(10, 10), Potion, 20),
    Item(Pos(13, 13), Treasure, 100)
  ]

  const Residents: seq<Npc> := [
    Npc(Pos(8, 2), "Merchant", "merchant"),
    Npc(Pos(2, 8), "Guard", "guard")
  ]

  /** `initializeLevel()`: a fresh grid, the fixed enemy, item and NPC layout,
      two welcome entries; the player, traps, turn and flag are kept. */
  function InitializeLevel(s: GameState, cellRoll: (int, int) -> Roll, now: int): (r: GameState)
    ensures r.grid == GenerateGrid(cellRoll)
    ensures r.enemies == Spawns && r.items == GroundItems && r.npcs == Residents
    ensures forall k :: 0 <= k < |r.enemies| ==> r.enemies[k].hp == r.enemies[k].maxHp > 0
    ensures LogExtends(s, r)
    ensures NewEntries(s, r) == [Message("Welcome to the Dungeon!", Action, now),
                                 Message("Use arrow keys or buttons to move.", Info, now)]
    ensures r.player == s.player && r.traps == s.traps && r.turn == s.turn && r.running == s.running
  {
    var s1 := s.(grid := GenerateGrid(cellRoll), enemies := Spawns, items := GroundItems, npcs := Residents);
    var s2 := AddMessage(s1, "Welcome to the Dungeon!", Action, now);
    var r := AddMessage(s2, "Use arrow keys or buttons to move.", Info, now);
    LogChain(s1, s2, r);
    r
  }

  const StartPlayer: Player := Player(
    Pos(8, 8), 100, 100, 50, 100, 1, 0, 150,
    [ InventoryEntry("potion", "Health Potion", 3),
      InventoryEntry("trap_spike", "Spike Trap", 5),
      InventoryEntry("trap_fire", "Fire Trap", 2) ])

  /** `new GameEngine(canvas)`: turn 1, running, a full-health player at (8, 8)
      on floor with 150 gold, half of 100 mana, level 1, no experience, three
      potions, five spike traps and two fire traps; no traps placed, and a
      generated level whose two welcome entries are the whole log. */
  function NewGame(cellRoll: (int, int) -> Roll, now: int): (r: GameState)
    ensures r.turn == 1 && r.running
    ensures r.player.pos == Pos(8, 8) && r.player.hp == r.player.maxHp == 100 && r.player.gold == 150
    ensures HpBounded(r) && PlayerOnFloor(r)
    ensures r.player.mana == 50 && r.player.maxMana == 100 && r.player.level == 1 && r.player.exp == 0
    ensures r.player.inventory == [InventoryEntry("potion", "Health Potion", 3),
                                   InventoryEntry("trap_spike", "Spike Trap", 5),
                                   InventoryEntry("trap_fire", "Fire Trap", 2)]
    ensures r.grid == GenerateGrid(cellRoll)
    ensures r.enemies == Spawns && r.items == GroundItems && r.npcs == Residents
    ensures r.traps == [] && |r.enemies| == 3
    ensures r.log == [Message("Welcome to the Dungeon!", Action, now),
                      Message("Use arrow keys or buttons to move.", Info, now)]
  {
    var blank := GameState(1, true, seq(Height, _ => seq(Width, _ => Wall)), StartPlayer, [], [], [], [], []);
    InitializeLevel(blank, cellRoll, now)
  }

  /** Only the start cell is cleared: with every draw below 0.08 the goblin
      spawns inside a wall and the player is walled in on all four sides. */
  lemma SpawnsNotCleared(now: int)
    ensures var r := NewGame((x: int, y: int) => 0.0, now);
            && r.enemies[0].pos == Pos(2, 2)
            && !IsWalkable(r.grid, Pos(2, 2))
            && !IsWalkable(r.grid, Pos(7, 8)) && !IsWalkable(r.grid, Pos(9, 8))
            && !IsWalkable(r.grid, Pos(8, 7)) && !IsWalkable(r.grid, Pos(8, 9))
  {
    var r := NewGame((x: int, y: int) => 0.0, now);
    assert r.grid == GenerateGrid((x: int, y: int) => 0.0);
  }
}

=== FILE: persistence.dfy ===
/** The save snapshot (`getSaveData`, `loadSaveData`). The snapshot carries the
    turn counter, the player, the enemy, item and NPC lists and the log; it
    leaves out the grid, the traps and the running flag. */
module Persistence {
  import opened World

  datatype SaveData = SaveData(
    turn: int,
    player: Player,
    enemies: seq<Enemy>,
    items: seq<Item>,
    npcs: seq<Npc>,
    log: seq<Message>)

  /** `getSaveData()`. */
  function GetSaveData(s: GameState): SaveData
  {
    SaveData(s.turn, s.player, s.enemies, s.items, s.npcs, s.log)
  }

  /** `loadSaveData(data)`: the saved parts are replaced verbatim, with no
      checking; the grid, traps and flag of the current game are kept. Saving
      right after a load gives back exactly the snapshot that was loaded. */
  function LoadSaveData(s: GameState, d: SaveData): (r: GameState)
    ensures GetSaveData(r) == d
    ensures r.grid == s.grid && r.traps == s.traps && r.running == s.running
  {
    s.(turn := d.turn, player := d.player, enemies := d.enemies, items := d.items,
       npcs := d.npcs, log := d.log)
  }

  /** The snapshot does not see the grid, the traps or the running flag. */
  lemma SnapshotOmits(s: GameState, g: Grid, t: seq<Trap>, b: bool)
    ensures GetSaveData(s.(grid := g, traps := t, running := b)) == GetSaveData(s)
  {
  }

  /** Loading a state's own snapshot changes nothing. */
  lemma SaveLoadRoundTrip(s: GameState)
    ensures LoadSaveData(s, GetSaveData(s)) == s
  {
  }

  /** Loading into another game reproduces every saved part of the original;
      the two games then differ at most in grid, traps and running flag. */
  lemma LoadIntoOtherGame(s: GameState, t: GameState)
    ensures var r := LoadSaveData(t, GetSaveData(s));
            r == s.(grid := t.grid, traps := t.traps, running := t.running)
  {
  }
}

=== FILE: session.dfy ===
/** A game session as the host drives it: any sequence of moves, item uses,
    trap purchases and turn ends, each at its own clock reading. The lemmas
    here state what holds across every such sequence. */
module Session {
  import opened World
  import opened Actions
  import opened EnemyAI

  datatype Command =
    | Move(dx: int, dy: int, roll: Roll, counterRoll: Roll)
    | UseItemCmd(id: string)
    | PlaceTrapCmd(x: int, y: int, kind: string)
    | EndTurnCmd(draws: nat -> Roll)

  datatype TimedCommand = At(cmd: Command, now: int)

  /** One host call. None of them checks the running flag. */
  function Apply(s: GameState, c: TimedCommand): (r: GameState)
    ensures LogExtends(s, r)
    ensures HpBounded(s) ==> HpBounded(r)
    ensures PlayerOnFloor(s) ==> PlayerOnFloor(r)
    ensures !s.running ==> !r.running
    ensures r.grid == s.grid
    ensures |s.traps| <= |r.traps| && r.traps[..|s.traps|] == s.traps
    ensures r.turn == s.turn + (if c.cmd.EndTurnCmd? then 1 else 0)
  {
    match c.cmd
    case Move(dx, dy, roll, counterRoll) => MovePlayer(s, dx, dy, roll, counterRoll, c.now)
    case UseItemCmd(id) => UseItem(s, id, c.now)
    case PlaceTrapCmd(x, y, kind) => PlaceTrap(s, x, y, kind, c.now)
    case EndTurnCmd(draws) => EndTurn(s, draws, c.now)
  }

  function TurnEnds(cs: seq<TimedCommand>): nat
    decreases |cs|
  {
    if |cs| == 0 then 0 else (if cs[0].cmd.EndTurnCmd? then 1 else 0) + TurnEnds(cs[1..])
  }

  /** A whole session. Across any sequence of calls: the turn counter counts
      exactly the turn ends, a stopped run never restarts, health never
      exceeds its maximum, the player never leaves the floor, the grid never
      changes, and the log and the trap list only ever grow at the end. */
  function Run(s: GameState, cs: seq<TimedCommand>): (r: GameState)
    ensures r.turn == s.turn + TurnEnds(cs)
    ensures !s.running ==> !r.running
    ensures HpBounded(s) ==> HpBounded(r)
    ensures PlayerOnFloor(s) ==> PlayerOnFloor(r)
    ensures r.grid == s.grid
    ensures LogExtends(s, r)
    ensures |s.traps| <= |r.traps| && r.traps[..|s.traps|] == s.traps
    decreases |cs|
  {
    if |cs| == 0 then s
    else
      var s1 := Apply(s, cs[0]);
      var r := Run(s1, cs[1..]);
      LogChain(s, s1, r);
      assert r.traps[..|s.traps|] == r.traps[..|s1.traps|][..|s.traps|];
      r
  }

  /** Nothing guards a stopped run: a defeated player can still drink a potion
      and the turn counter still advances. */
  lemma NoGuardAfterDefeat(s: GameState, k: nat, draws: nat -> Roll, now: int)
    requires !s.running
    requires k < |s.player.inventory| && s.player.inventory[k].id == "potion" && s.player.inventory[k].count > 0
    requires forall j :: 0 <= j < k ==> s.player.inventory[j].id != "potion"
    requires s.player.hp < s.player.maxHp
    ensures Apply(s, At(UseItemCmd("potion"), now)).player.hp > s.player.hp
    ensures Apply(s, At(EndTurnCmd(draws), now)).turn == s.turn + 1
  {
    EntryForIs(s.player.inventory, "potion", k);
  }
}

=== FILE: text.dfy ===
/** Text helpers the engine and the utilities need: the decimal rendering
    JavaScript uses when an integer is interpolated into a template string,
    its parser, ASCII lower-casing, and joining/splitting on one separator
    character (`Array.prototype.join` / `String.prototype.split`). */
module Text {

  predicate IsDigit(c: char) {
    '0' <= c <= '9'
  }

  predicate AllDigits(s: string) {
    forall i :: 0 <= i < |s| ==> IsDigit(s[i])
  }

  function DigitChar(d: nat): (c: char)
    requires d < 10
    ensures IsDigit(c)
  {
    "0123456789"[d]
  }

  function DigitValue(c: char): (d: nat)
    requires IsDigit(c)
    ensures d < 10
  {
    (c as int - '0' as int) as nat
  }

  lemma DigitRoundTrip(d: nat)
    requires d < 10
    ensures DigitValue(DigitChar(d)) == d
  {
  }

  /** Decimal digits of `n`, most significant first, without leading zeros. */
  function NatToString(n: nat): (r: string)
    ensures |r| >= 1 && AllDigits(r)
    ensures r[0] != '0' || n == 0
    decreases n
  {
    if n < 10 then [DigitChar(n)]
    else NatToString(n / 10) + [DigitChar(n % 10)]
  }

  /** How `${i}` renders an integer: a minus sign, then the digits. */
  function IntToString(i: int): (r: string)
    ensures |r| >= 1
    ensures i >= 0 <==> r[0] != '-'
  {
    if i < 0 then "-" + NatToString(-i) else NatToString(i)
  }

  /** The value of a string of decimal digits (the empty string reads as 0). */
  function ParseNat(s: string): nat
    requires AllDigits(s)
    decreases |s|
  {
    if |s| == 0 then 0
    else ParseNat(s[..|s| - 1]) * 10 + DigitValue(s[|s| - 1])
  }

  /** Reading back the digits of `n` gives `n`. */
  lemma {:induction false} ParseNatToString(n: nat)
    ensures ParseNat(NatToString(n)) == n
    decreases n
  {
    var s := NatToString(n);
    if n < 10 {
      DigitRoundTrip(n);
      assert s[..|s| - 1] == [];
    } else {
      ParseNatToString(n / 10);
      DigitRoundTrip(n % 10);
      assert s[..|s| - 1] == NatToString(n / 10);
    }
  }

  /** ASCII case mapping; `toLowerCase` on other characters is not modelled. */
  function LowerChar(c: char): char {
    if 'A' <= c <= 'Z' then (c as int + 32) as char else c
  }

  predicate IsUpper(c: char) {
    'A' <= c <= 'Z'
  }

  function ToLower(s: string): (r: string)
    ensures |r| == |s|
    ensures forall i :: 0 <= i < |s| ==> r[i] == LowerChar(s[i])
    ensures forall i :: 0 <= i < |r| ==> !IsUpper(r[i])
  {
    seq(|s|, i requires 0 <= i < |s| => LowerChar(s[i]))
  }


  /** `words.join(sep)`. */
  function Join(ws: seq<string>, sep: char): string
    decreases |ws|
  {
    if |ws| == 0 then ""
    else if |ws| == 1 then ws[0]
    else ws[0] + [sep] + Join(ws[1..], sep)
  }

  /** `s.split(sep)`: the pieces between separators, always at least one. */
  function Split(s: string, sep: char): (r: seq<string>)
    ensures |r| >= 1
    decreases |s|
  {
    if |s| == 0 then [""]
    else
      var rest := Split(s[1..], sep);
      if s[0] == sep then [""] + rest
      else [[s[0]] + rest[0]] + rest[1..]
  }

  predicate FreeOf(w: string, sep: char) {
    forall i :: 0 <= i < |w| ==> w[i] != sep
  }

  lemma {:induction false} SplitFreeOf(w: string, sep: char)
    requires FreeOf(w, sep)
    ensures Split(w, sep) == [w]
    decreases |w|
  {
    if |w| > 0 {
      SplitFreeOf(w[1..], sep);
      assert [w[0]] + w[1..] == w;
    }
  }

  lemma {:induction false} SplitAfterWord(w: string, sep: char, t: string)
    requires FreeOf(w, sep)
    ensures Split(w + [sep] + t, sep) == [w] + Split(t, sep)
    decreases |w|
  {
    var s := w + [sep] + t;
    if |w| == 0 {
      assert s[1..] == t;
    } else {
      assert s[1..] == w[1..] + [sep] + t;
      SplitAfterWord(w[1..], sep, t);
      assert [w[0]] + w[1..] == w;
    }
  }

  /** Splitting a join of separator-free words gives the words back. */
  lemma {:induction false} SplitJoin(ws: seq<string>, sep: char)
    requires |ws| >= 1
    requires forall k :: 0 <= k < |ws| ==> FreeOf(ws[k], sep)
    ensures Split(Join(ws, sep), sep) == ws
    decreases |ws|
  {
    if |ws| == 1 {
      SplitFreeOf(ws[0], sep);
    } else {
      SplitJoin(ws[1..], sep);
      SplitAfterWord(ws[0], sep, Join(ws[1..], sep));
      assert ws == [ws[0]] + ws[1..];
    }
  }
}

=== FILE: utils.dfy ===
/** The pure helpers of `src/utils.js`: duration formatting, page-name to URL
    lookup, and the class-name combiner. */
module Utils {
  import opened Common
  import opened Text

  // ---------------------------------------------------------------------------
  // formatTime

  const MsPerSecond: int := 1000
  const MsPerMinute: int := 60000
  const MsPerHour: int := 3600000

  /** `formatTime(ms)` for an integer millisecond count. JavaScript's
      `Math.floor(a / b)` with a positive divisor is Dafny's `/`; the two `%`
      in the source are only reached with a positive left operand, where
      truncating and Euclidean remainder agree. */
  function FormatTime(ms: int): (r: string)
    ensures ms >= MsPerHour ==>
      r == NatToString(ms / MsPerHour) + "h " + NatToString(ms / MsPerMinute % 60) + "m"
    ensures MsPerMinute <= ms < MsPerHour ==>
      r == NatToString(ms / MsPerMinute) + "m " + NatToString(ms / MsPerSecond % 60) + "s"
    ensures ms < MsPerMinute ==> r == IntToString(ms / MsPerSecond) + "s"
  {
    var seconds := ms / 1000;
    var minutes := seconds / 60;
    var hours := minutes / 60;
    UnitSteps(ms);
    if hours > 0 then
      IntToString(hours) + "h " + IntToString(minutes % 60) + "m"
    else if minutes > 0 then
      IntToString(minutes) + "m " + IntToString(seconds % 60) + "s"
    else
      IntToString(seconds) + "s"
  }

  /** Flooring in steps of seconds, minutes and hours is flooring at once. */
  lemma UnitSteps(ms: int)
    ensures ms / 1000 / 60 == ms / MsPerMinute
    ensures ms / 1000 / 60 / 60 == ms / MsPerHour
    ensures ms / 1000 / 60 > 0 <==> ms >= MsPerMinute
    ensures ms / 1000 / 60 / 60 > 0 <==> ms >= MsPerHour
  {
    var q, r := ms / 1000, ms % 1000;
    var q2, r2 := q / 60, q % 60;
    var q3, r3 := q2 / 60, q2 % 60;
    assert ms == 60000 * q2 + (1000 * r2 + r);
    assert ms == 3600000 * q3 + (60000 * r3 + 1000 * r2 + r);
  }

  /** What a formatted duration shows. */
  datatype Shown =
    | HoursMinutes(hours: nat, minutes: nat)
    | MinutesSeconds(minutes: nat, seconds: nat)
    | SecondsOnly(total: int)

  /** Number of leading decimal digits of `s`. */
  function DigitSpan(s: string): (k: nat)
    ensures k <= |s| && AllDigits(s[..k])
    ensures k < |s| ==> !IsDigit(s[k])
    decreases |s|
  {
    if |s| > 0 && IsDigit(s[0]) then
      var k := 1 + DigitSpan(s[1..]);
      assert s[..k] == [s[0]] + s[1..][..k - 1];
      k
    else 0
  }

  lemma {:induction false} DigitSpanOf(d: string, t: string)
    requires AllDigits(d)
    requires |t| == 0 || !IsDigit(t[0])
    ensures DigitSpan(d + t) == |d|
    decreases |d|
  {
    if |d| > 0 {
      assert (d + t)[1..] == d[1..] + t;
      DigitSpanOf(d[1..], t);
    }
  }

  /** Reads back a string of one of the three shapes `FormatTime` produces. */
  function ParseTime(s: string): Option<Shown> {
    if |s| > 0 && s[0] == '-' then
      match ParseLeadingNat(s[1..])
      case Some((n, rest)) => if rest == "s" then Some(SecondsOnly(0 - n)) else None
      case None => None
    else
      match ParseLeadingNat(s)
      case Some((a, rest)) => ParseAfterFirst(a, rest)
      case None => None
  }

  /** The number a string starts with and what follows it. */
  function ParseLeadingNat(s: string): Option<(nat, string)> {
    var k := DigitSpan(s);
    if k == 0 then None else Some((ParseNat(s[..k]), s[k..]))
  }

  function ParseAfterFirst(a: nat, rest: string): Option<Shown> {
    if rest == "s" then Some(SecondsOnly(a))
    else if |rest| >= 2 && rest[1] == ' ' && (rest[0] == 'h' || rest[0] == 'm') then
      match ParseLeadingNat(rest[2..])
      case Some((b, tail)) =>
        if rest[0] == 'h' && tail == "m" then Some(HoursMinutes(a, b))
        else if rest[0] == 'm' && tail == "s" then Some(MinutesSeconds(a, b))
        else None
      case None => None
    else None
  }

  /** A digit run followed by a non-digit splits where the digits end. */
  lemma DigitsThen(d: string, t: string)
    requires |d| >= 1 && AllDigits(d)
    requires |t| >= 1 && !IsDigit(t[0])
    ensures DigitSpan(d + t) == |d|
    ensures (d + t)[..|d|] == d && (d + t)[|d|..] == t
    ensures IsDigit((d + t)[0])
  {
    DigitSpanOf(d, t);
  }

  lemma ParseLeading(n: nat, t: string)
    requires |t| >= 1 && !IsDigit(t[0])
    ensures ParseLeadingNat(NatToString(n) + t) == Some((n, t))
    ensures (NatToString(n) + t)[0] != '-'
  {
    DigitsThen(NatToString(n), t);
    ParseNatToString(n);
  }

  lemma ParseUnits(a: nat, u1: char, b: nat, u2: char)
    requires (u1 == 'h' && u2 == 'm') || (u1 == 'm' && u2 == 's')
    ensures ParseTime(NatToString(a) + [u1, ' '] + NatToString(b) + [u2]) ==
      Some(if u1 == 'h' then HoursMinutes(a, b) else MinutesSeconds(a, b))
  {
    var rest := [u1, ' '] + NatToString(b) + [u2];
    Reassociate(NatToString(a), [u1, ' '], NatToString(b), [u2]);
    ParseLeading(a, rest);
    AfterFirstUnits(a, u1, b, u2);
    ParseTimeUnsigned(NatToString(a) + rest, a, rest);
  }

  lemma Reassociate(w: string, x: string, y: string, z: string)
    ensures w + x + y + z == w + (x + y + z)
  {
  }

  /** An unsigned string is read as its leading number and what follows. */
  lemma ParseTimeUnsigned(s: string, a: nat, rest: string)
    requires |s| > 0 && s[0] != '-'
    requires ParseLeadingNat(s) == Some((a, rest))
    ensures ParseTime(s) == ParseAfterFirst(a, rest)
  {
  }

  /** What follows the first number: its unit, a space, the second number
      and its unit. */
  lemma AfterFirstUnits(a: nat, u1: char, b: nat, u2: char)
    requires (u1 == 'h' && u2 == 'm') || (u1 == 'm' && u2 == 's')
    ensures ParseAfterFirst(a, [u1, ' '] + NatToString(b) + [u2]) ==
      Some(if u1 == 'h' then HoursMinutes(a, b) else MinutesSeconds(a, b))
  {
    var rest := [u1, ' '] + NatToString(b) + [u2];
    assert |rest| >= 4 && rest[0] == u1 && rest[1] == ' ';
    assert rest[2..] == NatToString(b) + [u2];
    ParseLeading(b, [u2]);
    assert ParseLeadingNat(rest[2..]) == Some((b, [u2]));
  }

  lemma ParseSeconds(n: int)
    ensures ParseTime(IntToString(n) + "s") == Some(SecondsOnly(n))
  {
    if n >= 0 {
      ParseLeading(n, "s");
      ParseTimeUnsigned(NatToString(n) + "s", n, "s");
    } else {
      assert IntToString(n) + "s" == "-" + (NatToString(-n) + "s");
      ParseNegativeSeconds(-n);
    }
  }

  /** A minus sign before a count of seconds reads back as the negative count. */
  lemma ParseNegativeSeconds(m: nat)
    ensures ParseTime("-" + (NatToString(m) + "s")) == Some(SecondsOnly(0 - m))
  {
    var s := "-" + (NatToString(m) + "s");
    assert s[1..] == NatToString(m) + "s";
    ParseLeading(m, "s");
  }

  /** The formatted duration reads back as the whole units it shows: hours and
      minutes totalling `ms / 60000` from one hour up, minutes and seconds
      totalling `ms / 1000` from one minute up, and whole seconds below that
      (`"0s"` for anything under a second, a negative count for negative
      input). */
  lemma FormatTimeRoundTrip(ms: int)
    ensures ParseTime(FormatTime(ms)).Some?
    ensures var d := ParseTime(FormatTime(ms)).value;
            && (d.HoursMinutes? <==> ms >= MsPerHour)
            && (d.MinutesSeconds? <==> MsPerMinute <= ms < MsPerHour)
            && (d.HoursMinutes? ==> d.hours * 60 + d.minutes == ms / MsPerMinute && d.minutes < 60)
            && (d.MinutesSeconds? ==> d.minutes * 60 + d.seconds == ms / MsPerSecond && d.seconds < 60)
            && (d.SecondsOnly? ==> d.total == ms / MsPerSecond)
  {
    UnitSteps(ms);
    if ms >= MsPerHour {
      var m := ms / MsPerMinute;
      var a, b := ms / MsPerHour, m % 60;
      assert a == m / 60;
      ParseUnits(a, 'h', b, 'm');
    } else if ms >= MsPerMinute {
      var sec := ms / MsPerSecond;
      var a, b := ms / MsPerMinute, sec % 60;
      assert a == sec / 60;
      ParseUnits(a, 'm', b, 's');
    } else {
      ParseSeconds(ms / MsPerSecond);
    }
  }

  // ---------------------------------------------------------------------------
  // createPageUrl

  /** The object literal `pageMap`, as a map of its own properties. */
  const PageMap: map<string, string> := map[
    "Dashboard" := "/dashboard",
    "GameModes" := "/game-modes",
    "GameSession" := "/game-session",
    "LevelCreator" := "/level-creator",
    "Profile" := "/profile",
    "AdminDashboard" := "/admin",
    "CommunityLevels" := "/community-levels",
    "Settings" := "/settings"
  ]

  predicate IsUrlPath(r: string) {
    |r| >= 1 && r[0] == '/' && forall i :: 0 <= i < |r| ==> !IsUpper(r[i])
  }

  /** `createPageUrl` as evidently intended: a known page name gives its fixed
      path, any other name `"/"` followed by the name in lower case. Every
      result is a lower-case path, so lower-casing a result changes nothing. */
  function CreatePageUrl(pageName: string): (r: string)
    ensures pageName in PageMap ==> r == PageMap[pageName]
    ensures pageName !in PageMap ==> r == "/" + ToLower(pageName)
    ensures IsUrlPath(r) && ToLower(r) == r
  {
    if pageName in PageMap then
      PageRoutes();
      LowerFixed(PageMap[pageName]);
      PageMap[pageName]
    else
      LowerFixed("/" + ToLower(pageName));
      "/" + ToLower(pageName)
  }

  /** Every fixed route is a lower-case path. */
  lemma PageRoutes()
    ensures forall k :: k in PageMap ==> IsUrlPath(PageMap[k])
  {
  }

  /** Lower-casing leaves a string without capitals unchanged. */
  lemma LowerFixed(r: string)
    requires forall i :: 0 <= i < |r| ==> !IsUpper(r[i])
    ensures ToLower(r) == r
  {
  }

  /** Distinct known pages have distinct paths. */
  lemma PageMapInjective(a: string, b: string)
    requires a in PageMap && b in PageMap && a != b
    ensures CreatePageUrl(a) != CreatePageUrl(b)
  {
  }

  /** The property names every plain JavaScript object inherits from
      `Object.prototype`; reading any of them from `pageMap` yields a function
      or an object, both truthy. */
  const InheritedKeys: set<string> := {
    "constructor", "hasOwnProperty", "isPrototypeOf", "propertyIsEnumerable",
    "toString", "toLocaleString", "valueOf", "__proto__",
    "__defineGetter__", "__defineSetter__", "__lookupGetter__", "__lookupSetter__"
  }

  /** A JavaScript value `createPageUrl` can return as written. */
  datatype JsValue = JsString(s: string) | JsInherited(key: string)

  /** `createPageUrl` as written: `pageMap[pageName]` also finds inherited
      members, and `||` returns them because they are truthy. */
  function CreatePageUrlAsWritten(pageName: string): (r: JsValue)
    ensures pageName !in InheritedKeys ==> r == JsString(CreatePageUrl(pageName))
    ensures pageName in InheritedKeys ==> r == JsInherited(pageName)
  {
    if pageName in PageMap then JsString(PageMap[pageName])
    else if pageName in InheritedKeys then JsInherited(pageName)
    else JsString("/" + ToLower(pageName))
  }

  /** The page name "constructor" is not sent to "/constructor": the as-written
      lookup returns the inherited `Object` constructor, which is not a URL. */
  lemma ConstructorIsNotAUrl()
    ensures !CreatePageUrlAsWritten("constructor").JsString?
    ensures CreatePageUrl("constructor") == "/constructor"
  {
    assert "constructor" in InheritedKeys;
    assert "constructor" !in PageMap;
    LowerFixed("constructor");
    assert "/" + ToLower("constructor") == "/constructor";
  }

  // ---------------------------------------------------------------------------
  // cn

  /** An argument of `cn`: a string, a boolean (from `cond && 'cls'`), a
      number, or `null`/`undefined`. */
  datatype ClassArg = Str(s: string) | Flag(b: bool) | Number(n: int) | Nothing

  /** JavaScript truthiness, the test `filter(Boolean)` applies. */
  predicate Truthy(a: ClassArg) {
    match a
    case Str(s) => s != ""
    case Flag(b) => b
    case Number(n) => n != 0
    case Nothing => false
  }

  /** How `join` renders a kept argument. */
  function Render(a: ClassArg): (r: string)
    requires Truthy(a)
    ensures r != ""
  {
    match a
    case Str(s) => s
    case Flag(_) => "true"
    case Number(n) => IntToString(n)
  }

  /** The truthy arguments, rendered, in their original order. */
  function Kept(args: seq<ClassArg>): (r: seq<string>)
    ensures |r| <= |args|
    ensures forall k :: 0 <= k < |r| ==> r[k] != ""
    ensures |r| == 0 <==> forall i :: 0 <= i < |args| ==> !Truthy(args[i])
    decreases |args|
  {
    if |args| == 0 then []
    else if Truthy(args[0]) then [Render(args[0])] + Kept(args[1..])
    else Kept(args[1..])
  }

  /** `cn(...classes)`: `classes.filter(Boolean).join(' ')`. */
  function Cn(args: seq<ClassArg>): (r: string)
    ensures r == "" <==> forall i :: 0 <= i < |args| ==> !Truthy(args[i])
  {
    JoinNonEmpty(Kept(args));
    Join(Kept(args), ' ')
  }

  lemma {:induction false} JoinNonEmpty(ws: seq<string>)
    requires forall k :: 0 <= k < |ws| ==> ws[k] != ""
    ensures Join(ws, ' ') == "" <==> |ws| == 0
    decreases |ws|
  {
    if |ws| > 1 {
      JoinNonEmpty(ws[1..]);
    }
  }

  /** A single argument is kept, rendered, exactly when it is truthy.
      Together with `KeptAppend` this pins `Kept` down on every list: the
      truthy arguments, rendered, in their original order. */
  lemma KeptOne(a: ClassArg)
    ensures Kept([a]) == if Truthy(a) then [Render(a)] else []
  {
  }

  lemma {:induction false} KeptAppend(a: seq<ClassArg>, b: seq<ClassArg>)
    ensures Kept(a + b) == Kept(a) + Kept(b)
    decreases |a|
  {
    if |a| > 0 {
      assert (a + b)[1..] == a[1..] + b;
      KeptAppend(a[1..], b);
    } else {
      assert a + b == b;
    }
  }

  lemma {:induction false} JoinAppend(u: seq<string>, v: seq<string>)
    requires |u| > 0 && |v| > 0
    ensures Join(u + v, ' ') == Join(u, ' ') + " " + Join(v, ' ')
    decreases |u|
  {
    if |u| == 1 {
      assert (u + v)[1..] == v;
    } else {
      assert (u + v)[1..] == u[1..] + v;
      JoinAppend(u[1..], v);
    }
  }

  /** A single argument contributes its rendering whole, spaces included
      (`cn("flex gap-2")` is `"flex gap-2"`), or nothing when it is falsy.
      With `CnAppend` this fixes `Cn` on every argument list. */
  lemma CnOne(a: ClassArg)
    ensures Cn([a]) == if Truthy(a) then Render(a) else ""
  {
    KeptOne(a);
  }

  /** `cn` composes: the classes of a concatenated argument list are the two
      halves' classes joined by one space, or just one half when the other
      contributes nothing. */
  lemma CnAppend(a: seq<ClassArg>, b: seq<ClassArg>)
    ensures Cn(a + b) ==
      if Cn(a) == "" then Cn(b)
      else if Cn(b) == "" then Cn(a)
      else Cn(a) + " " + Cn(b)
  {
    KeptAppend(a, b);
    JoinNonEmpty(Kept(a));
    JoinNonEmpty(Kept(b));
    if |Kept(a)| == 0 {
      assert Kept(a + b) == Kept(b);
    } else if |Kept(b)| == 0 {
      assert Kept(a + b) == Kept(a);
    } else {
      JoinAppend(Kept(a), Kept(b));
    }
  }

  /** When no kept class name contains a space, splitting the result on spaces
      recovers exactly the truthy arguments, in order. */
  lemma CnSplit(args: seq<ClassArg>)
    requires exists i :: 0 <= i < |args| && Truthy(args[i])
    requires forall k :: 0 <= k < |Kept(args)| ==> FreeOf(Kept(args)[k], ' ')
    ensures Split(Cn(args), ' ') == Kept(args)
  {
    SplitJoin(Kept(args), ' ');
  }
}

=== FILE: world.dfy ===
/** The state of one `GameEngine`: the tile grid, the player, the enemy, item,
    NPC and trap lists, the message log, the turn counter and the running
    flag. Every engine operation is modelled as a function from one such
    state to the next. */
module World {
  const Width: int := 16
  const Height: int := 16

  datatype Tile = Wall | Floor

  /** `grid[y][x]`: always `Height` rows of `Width` tiles once the level has
      been generated, which the constructor does before anything else. */
  type Grid = g: seq<seq<Tile>> | |g| == Height && forall y :: 0 <= y < |g| ==> |g[y]| == Width
    witness seq(16, _ => seq(16, _ => Wall))

  datatype Pos = Pos(x: int, y: int)

  predicate InBounds(p: Pos) {
    0 <= p.x < Width && 0 <= p.y < Height
  }

  /** `isWalkable(x, y)`: inside the grid and not a wall. */
  function IsWalkable(g: Grid, p: Pos): (b: bool)
    ensures b <==> InBounds(p) && g[p.y][p.x] == Floor
  {
    if p.x < 0 || p.x >= Width || p.y < 0 || p.y >= Height then false
    else g[p.y][p.x] != Wall
  }

  /** One draw of `Math.random()`. */
  type Roll = r: real | 0.0 <= r < 1.0

  datatype InventoryEntry = InventoryEntry(id: string, name: string, count: int)

  datatype Player = Player(
    pos: Pos,
    hp: int, maxHp: int,
    mana: int, maxMana: int,
    level: int, exp: int, gold: int,
    inventory: seq<InventoryEntry>)

  datatype EnemyKind = Goblin | Orc | Skeleton

  datatype Enemy = Enemy(
    pos: Pos, kind: EnemyKind,
    hp: int, maxHp: int, attack: int, defense: int, exp: int)

  /** The `type` of a ground item; `OtherItem` stands for any other string,
      which pickup removes without effect. */
  datatype ItemKind = GoldPile | Potion | Treasure | OtherItem(name: string)

  datatype Item = Item(pos: Pos, kind: ItemKind, amount: int)

  datatype Npc = Npc(pos: Pos, name: string, kind: string)

  datatype Trap = Trap(pos: Pos, kind: string, active: bool, damage: int)

  datatype Category = Normal | Action | Info | Combat | Success | Error

  /** A log entry; `timestamp` is the caller-supplied clock reading. */
  datatype Message = Message(text: string, category: Category, timestamp: int)

  datatype GameState = GameState(
    turn: int,
    running: bool,
    grid: Grid,
    player: Player,
    enemies: seq<Enemy>,
    items: seq<Item>,
    npcs: seq<Npc>,
    traps: seq<Trap>,
    log: seq<Message>)

  /** Every state change keeps earlier log entries in place. */
  predicate LogExtends(s: GameState, r: GameState) {
    |s.log| <= |r.log| && r.log[..|s.log|] == s.log
  }

  /** The entries appended between `s` and `r`. */
  function NewEntries(s: GameState, r: GameState): seq<Message>
    requires LogExtends(s, r)
  {
    r.log[|s.log|..]
  }

  /** Log growth composes: what two steps append is what the first appends
      followed by what the second appends. */
  lemma LogChain(a: GameState, b: GameState, c: GameState)
    requires LogExtends(a, b) && LogExtends(b, c)
    ensures LogExtends(a, c)
    ensures NewEntries(a, c) == NewEntries(a, b) + NewEntries(b, c)
  {
    assert c.log[..|a.log|] == c.log[..|b.log|][..|a.log|];
    assert c.log[|a.log|..] == c.log[|a.log|..|b.log|] + c.log[|b.log|..];
    assert c.log[|a.log|..|b.log|] == b.log[|a.log|..];
  }

  /** `addMessage(text, type)`: appends exactly one entry and changes nothing
      else. */
  function AddMessage(s: GameState, text: string, category: Category, now: int): (r: GameState)
    ensures LogExtends(s, r) && NewEntries(s, r) == [Message(text, category, now)]
    ensures r.(log := s.log) == s
  {
    s.(log := s.log + [Message(text, category, now)])
  }

  /** The player's health never exceeds its maximum. */
  predicate HpBounded(s: GameState) {
    s.player.hp <= s.player.maxHp
  }

  /** The player stands on a floor tile. */
  predicate PlayerOnFloor(s: GameState) {
    IsWalkable(s.grid, s.player.pos)
  }

  /** The catalog `createEnemy` copies stats from. */
  function CatalogEnemy(kind: EnemyKind, at: Pos): Enemy {
    match kind
    case Goblin => Enemy(at, Goblin, 30, 30, 5, 2, 25)
    case Orc => Enemy(at, Orc, 50, 50, 8, 3, 40)
    case Skeleton => Enemy(at, Skeleton, 25, 25, 6, 1, 30)
  }

  /** `createEnemy(x, y, type)`: a fresh enemy at full health whose hit can
      exceed one point and whose defense lets the weakest player hit through. */
  function CreateEnemy(x: int, y: int, kind: EnemyKind): (e: Enemy)
    ensures e.pos == Pos(x, y) && e.kind == kind
    ensures e.hp == e.maxHp > 0
    ensures e.attack >= 2 && 0 <= e.defense < 5 && e.exp > 0
  {
    CatalogEnemy(kind, Pos(x, y))
  }
}
